=== FILE: README.md ===
# rint: a bounded-integer type, modelled in Dafny

`rint` is a single-header C++ library. Its class template
`ranged_int<min_v, max_v>` holds an integer tagged with an inclusive range.
The value is stored in the first of `uint8_t, int8_t, uint16_t, int16_t,
uint32_t, int32_t` that *spans* the bounds: its minimum is at most `min_v`
and its maximum is at least `max_v`. For ordered bounds, this means its
limits contain both bounds. Construction and the free function
`to_integral<t>` check a value against native limits and throw
`std::out_of_range` on failure. Two objects of the same instantiation can be
compared with the six relational operators.

The model has six modules:

- `Results` has `Option`, `Result` and `Outcome`. These stand in for the
  specialisation without a `type` member and for the thrown exception, whose
  message they carry.
- `Kinds` covers the six native types: their limits, their width and
  signedness, and `static_cast` into them. The cast is modular conversion.
- `Selection` models `detail::in_range` and the template recursion of
  `detail::value_type`. The recursion becomes a scan over an ordered sequence
  of candidate kinds. The module proves the scan sound and minimal, says
  exactly when it fails, and shows it agrees with a closed-form decision table.
- `Verification` models `detail::verify_range`. It proves the guard agrees
  with a three-way dispatch on the signedness of the target and source kinds.
- `RangedInts` models the class template and `to_integral`. Bounds are a
  `Bounds` value. An object is a `RangedInt` whose validity predicate says
  its stored value belongs to the storage kind.
- `Scenarios` holds concrete cases from the demonstration driver and the
  test suite.

Behaviour of the code that the model keeps, and that a reader might not expect:

- Construction checks the value against the storage kind's native limits,
  not against `[min_v, max_v]`.
- The default constructor stores 0 without a check. Zero fits every kind,
  but it may lie outside the declared bounds, as with `ranged_int<29, 30>`.
- The comparison operators are member templates over the other operand's
  bounds. But they read that operand's private `value`, so a comparison
  between two different instantiations does not compile. Only objects of one
  instantiation, and hence of one storage kind, can be compared.
- Nothing requires `min_v <= max_v`, so reversed bounds are not rejected.
  `in_range` only checks `min_v` against the kind's minimum and `max_v`
  against its maximum. When a kind still spans reversed bounds, `min()` or
  `max()` can wrap: `ranged_int<300, 0>` is stored in `uint8_t`, and its
  `min()` is 44. Whether it wraps depends on the bounds: `ranged_int<5, 0>`
  is also stored in `uint8_t` but keeps both bounds. When no kind spans the
  bounds, as for `ranged_int<-3000000000, -4000000000>`, there is no storage
  type at all (`RangedInts.ReversedBoundsWrap`).

## Model

| member | source | states |
|---|---|---|
| Kinds.StaticCast | rint.hpp:105 | the conversion yields a value of the target kind and leaves every value of that kind unchanged |
| Kinds.StaticCastIsCongruent | rint.hpp:105 | the conversion moves a value only by a whole multiple of 2^bits |
| Kinds.StaticCastPreservesExactlyRepresentable | rint.hpp:105 | a value survives the conversion unchanged if and only if the target kind holds it |
| Kinds.StaticCastWrapsOutOfRange | rint.hpp:57 | unchecked conversions of out-of-range values wrap (256 to 0 in uint8, 200 to -56 in int8) |
| Selection.InRange | rint.hpp:10-13 | a kind that spans the bounds holds every value between them; for ordered bounds, a kind holding both bounds spans them |
| Selection.Rank | rint.hpp:47-49 | each kind sits at a definite position in the candidate order |
| Selection.SelectFrom | rint.hpp:18-29 | the result is absent exactly when no candidate spans the bounds; otherwise it is a candidate that spans them, and every earlier candidate does not |
| Selection.ValueType | rint.hpp:44-50 | the storage type, when there is one, spans the bounds; there is none exactly when no kind spans them |
| Selection.SelectionSoundAndMinimal | rint.hpp:9-29 | the selected kind spans the bounds, and no kind earlier in the order uint8, int8, uint16, int16, uint32, int32 does |
| Selection.SelectionFailsIff | rint.hpp:28-29 | there is no storage type exactly when no kind spans the bounds, that is, when neither uint32 (minimum 0, maximum 2^32-1) nor int32 spans them |
| Selection.SignednessFollowsMin | rint.hpp:44-50 | the selected kind is signed if and only if the lower bound is negative |
| Selection.SelectedIsNarrowest | rint.hpp:44-50 | every kind that spans the bounds is at least as wide as the selected one |
| Selection.SelectionIsDecisionTable | rint.hpp:44-50 | the selection equals the decision table: narrowest signed kind for a negative minimum, otherwise narrowest unsigned kind whose maximum reaches the upper bound |
| Selection.ConcreteSelections | tests/rint_ut.cpp:15-49 | kinds' own limits select that kind; (1,254), (10,30) give uint8; (-1,100) int8; (0,256) uint16; (-1,256) int16; bounds beyond 32 bits select nothing |
| Verification.VerifyRange | rint.hpp:31-37 | the check passes exactly when the value is within the target kind's limits, and fails with the given message otherwise |
| Verification.VerifyRangeAgreesWithDispatch | rint.hpp:31-37 | for every value of its own kind, the check agrees with the signedness dispatch (same sign, unsigned target from signed, signed target from unsigned) |
| Verification.WideningNeverFails | rint.hpp:31-37 | a target whose limits contain the source kind's limits accepts every value of the source kind |
| RangedInts.StorageKind | rint.hpp:44-50 | the storage type of a complete instantiation spans the template bounds |
| RangedInts.Min | rint.hpp:52 | min() is a value of the storage kind; it equals min_v exactly when the kind holds min_v, and always when the bounds are ordered |
| RangedInts.Max | rint.hpp:53 | max() is a value of the storage kind; it equals max_v exactly when the kind holds max_v, and always when the bounds are ordered |
| RangedInts.ReversedBoundsWrap | rint.hpp:52-53 | reversed bounds are not rejected; when a kind spans them, min() or max() can wrap: (300,0) gives uint8 with min() 44 and (0,-5) gives uint8 with max() 251, while (5,0) keeps both bounds and (-3000000000,-4000000000) selects no kind |
| RangedInts.Construct | rint.hpp:55-59 | construction succeeds exactly when the input is within the storage kind's native limits; then the object is valid and dereferences to the input; otherwise it fails with "rint: failed to initialize" |
| RangedInts.ConstructThenCastRoundTrip | rint.hpp:55-106 | a value the storage kind holds, constructed and then cast back to the storage kind, is returned unchanged; a cast to another kind returns it exactly when that kind holds it, else the cast error |
| RangedInts.Default | rint.hpp:61 | the default object is valid and dereferences to 0 |
| RangedInts.Deref | rint.hpp:71 | dereference yields a value of the storage kind |
| RangedInts.Greater | rint.hpp:77-80 | `>` is the primitive comparison of stored values; its laws are stated by ComparisonsIgnoreBounds, Trichotomy and OrderLaws |
| RangedInts.Less | rint.hpp:73-76 | `<` is `>` with the operands swapped, and never holds together with `>` |
| RangedInts.Equal | rint.hpp:89-92 | `==` holds exactly when neither operand's stored value is below the other's, from either side |
| RangedInts.LessEq | rint.hpp:81-84 | `<=`, written as the negation of `>`, is the integer order on stored values |
| RangedInts.GreaterEq | rint.hpp:85-88 | `>=`, written as the negation of `<`, is the reverse integer order on stored values |
| RangedInts.NotEqual | rint.hpp:93-96 | `!=`, written as the negation of `==`, holds exactly when one operand is strictly below the other, in either direction |
| RangedInts.ComparisonsAreIntegerOrder | rint.hpp:73-96 | `<=` is `<` or `==`; `>=` is `<=` with the operands swapped, and also `>` or `==`; `!=` is `<` or `>` |
| RangedInts.ComparisonsIgnoreBounds | rint.hpp:73-92 | the verdicts of `<`, `>` and `==` depend only on the stored values, not on the operands' bounds tags |
| RangedInts.Trichotomy | rint.hpp:73-92 | exactly one of `<`, `==`, `>` holds between any two objects |
| RangedInts.OrderLaws | rint.hpp:73-96 | `<` and `<=` are transitive, `==` is an equivalence, and `<=` both ways implies `==` |
| RangedInts.ToIntegral | rint.hpp:102-106 | the cast succeeds exactly when the stored value is within the target's limits and then returns the same number; otherwise it fails with "rint: unable to cast" |
| RangedInts.WideningCastSucceeds | rint.hpp:102-106 | a cast to a kind containing the storage kind's range, including the storage kind itself, never fails |
| RangedInts.NegativeToUnsignedFails | rint.hpp:102-106 | a negative stored value never casts to an unsigned kind (mathematical verdict; the C++ check against uint32 lets it through) |
| Scenarios.DriverScenario | main.cpp:6-18 | ranged_int<-1,100> built from -1 casts to int8 as -1 and not to uint8; ranged_int<0,100> built from 1 succeeds |
| Scenarios.DefaultOutsideBounds | tests/rint_ut.cpp:52-56 | ranged_int<29,30>{} compiles and holds 0, below its lower bound |
| Scenarios.ConstructChecksNativeRange | rint.hpp:55-59 | ranged_int<10,30> accepts 200 (inside uint8, outside the bounds) and rejects 256 and -1 |
| Scenarios.CastScenarios | rint.hpp:102-106 | -2 in ranged_int<-10,30> casts to int8 but to no unsigned kind (mathematical verdict for uint32); 65535 in ranged_int<0,65535> fails to cast to int16 |
| Scenarios.EqualAcrossBounds | rint.hpp:89-92 | the model's `==` finds ranged_int<0,30>{1} and ranged_int<0,40>{1} equal, a comparison the C++ rejects at compile time; within ranged_int<-1,100>, -1 is below 0 |

## Left out

- Usual arithmetic conversions: the C++ comparisons in `in_range` (rint.hpp:11-12) and `verify_range` (rint.hpp:33-34) convert the signed operand of a mixed-sign comparison to unsigned when the unsigned operand's type has at least the rank of the signed one's, after promotion. Operands narrower than `int` are first promoted to `int`. So the conversion happens for `uint32_t` against `int` or a narrower signed type, and for a 64-bit unsigned argument against any signed type. A signed operand of higher rank that holds every `uint32_t` value, such as `long long` or (on LP64) `long`, is compared in its own type instead, which gives the mathematical verdict. The model's verdicts are the mathematical ones throughout. The C++ results differ in these cases:
  - Selection: a negative bound makes `uint32_t` "fit", so the full `int32_t` range would select `uint32_t`. The test suite expects `int32_t`.
  - Negative value of type `int` or narrower against an unsigned 32-bit target: `verify_range<uint32_t>` lets it through. `ranged_int<0,70000>(-1)` passes the check and stores 4294967295, where `Construct(Bounds(0, 70000), -1)` gives the initialisation error. `to_integral<std::uint32_t>` of a stored -2 returns 4294967294, where `ToIntegral` and `Scenarios.CastScenarios` give the cast error. A `long long` argument is not affected: `ranged_int<0,70000>(-1LL)` throws, as the model does.
  - Wide unsigned value against a signed target: `verify_range` with a signed `R` converts that kind's minimum to a large unsigned number (2^32-128, 2^32-32768 or 2^31 for 32-bit unsigned, near 2^64 for 64-bit), so the check always throws. `to_integral<std::int32_t>(ranged_int<0,70000>(5))` throws "rint: unable to cast" where `ToIntegral` gives `Ok(5)`. Likewise `ranged_int<-1,100>(5u)` and `ranged_int<-1,100>(5ul)` throw "rint: failed to initialize" where `Construct` succeeds.
- Exceptions: `std::out_of_range` becomes a `Result` or `Outcome` carrying the same message string.
- Order of construction: the constructor's member initialiser converts before the check runs. An object never outlives a failed check, so construction yields an object only on success.
- Input types: the constructor's `Val` parameter may be any arithmetic type. Integer arguments are modelled as an unbounded `int`.
- Floating-point arguments are not modelled. `ranged_int<0,100>(3.7)` passes the check and silently stores 3. For an out-of-range floating-point argument, the conversion in the member initialiser (rint.hpp:57) is undefined behaviour before the check can throw.
- Cast targets: `to_integral<t>` accepts any arithmetic type, including `int64_t`, `uint64_t` and floating-point types. The model allows only the six candidate kinds.
- Definition-time failures: an instantiation with no storage type does not compile. The model makes the operations require `Definable`.
- Copy, move and destruction (rint.hpp:62-68): these are defaulted value semantics.
- Comparisons across instantiations: C++ rejects every comparison between two different instantiations at compile time, because the operator would read the other class's private `value` (rint.hpp:75, 98-99). The model's six operators accept any two objects. Where C++ compiles a comparison, its operands share a storage kind and the model's verdict is the C++ one.
- The `fwd` helper and the partial specialisations (rint.hpp:15-29) are not modelled. Only the selection they compute is.
- RangedInts.Min: always equals `min_v` when the bounds are ordered. With reversed bounds it equals `min_v` exactly when the storage kind holds `min_v`, and otherwise wraps, since the class template never enforces ordered bounds.
- RangedInts.Max: always equals `max_v` when the bounds are ordered. With reversed bounds it equals `max_v` exactly when the storage kind holds `max_v`, and otherwise wraps.

=== FILE: kinds.dfy ===
/** The six fixed-width native integer types a `ranged_int` can be stored in,
    their `std::numeric_limits`, and the `static_cast` conversion into them. */
module Kinds {

  /** `std::uint8_t`, `std::int8_t`, ..., `std::int32_t`. */
  datatype Kind = UInt8 | Int8 | UInt16 | Int16 | UInt32 | Int32

  /** True for the two's-complement (signed) kinds. */
  predicate IsSigned(k: Kind) {
    k.Int8? || k.Int16? || k.Int32?
  }

  /** Width of the kind in bits. */
  function Bits(k: Kind): nat {
    match k
    case UInt8 | Int8 => 8
    case UInt16 | Int16 => 16
    case UInt32 | Int32 => 32
  }

  /** `std::numeric_limits<k>::min()`. */
  function KMin(k: Kind): int {
    match k
    case UInt8 | UInt16 | UInt32 => 0
    case Int8 => -0x80
    case Int16 => -0x8000
    case Int32 => -0x8000_0000
  }

  /** `std::numeric_limits<k>::max()`. */
  function KMax(k: Kind): int {
    match k
    case UInt8 => 0xFF
    case Int8 => 0x7F
    case UInt16 => 0xFFFF
    case Int16 => 0x7FFF
    case UInt32 => 0xFFFF_FFFF
    case Int32 => 0x7FFF_FFFF
  }

  /** 2 to the power `Bits(k)`: how many distinct values the kind has. */
  function Modulus(k: Kind): (m: int)
    ensures m == KMax(k) - KMin(k) + 1
    ensures m > 0
  {
    match k
    case UInt8 | Int8 => 0x100
    case UInt16 | Int16 => 0x1_0000
    case UInt32 | Int32 => 0x1_0000_0000
  }

  /** The value `v` is one of the values of kind `k`. */
  predicate Represents(k: Kind, v: int) {
    KMin(k) <= v <= KMax(k)
  }

  /** The representative of `v` modulo `m` in the window `[lo, lo + m)`. */
  function Wrap(v: int, lo: int, m: int): (r: int)
    requires m > 0
    ensures lo <= r < lo + m
    ensures lo <= v < lo + m ==> r == v
  {
    var d := v - lo;
    if 0 <= d < m then v else lo + d % m
  }

  /** `static_cast<k>(v)` on an integer: the unique value of `k` congruent to
      `v` modulo 2^Bits(k) (the integral conversion rule of C++20; earlier
      standards left the signed case implementation-defined, and every
      two's-complement compiler does this). */
  function StaticCast(k: Kind, v: int): (r: int)
    ensures Represents(k, r)
    ensures Represents(k, v) ==> r == v
  {
    Wrap(v, KMin(k), Modulus(k))
  }

  /** The conversion only ever moves a value by a whole number of
      2^Bits(k) steps. */
  lemma StaticCastIsCongruent(k: Kind, v: int)
    ensures exists q :: v == StaticCast(k, v) + q * Modulus(k)
  {
    var m := Modulus(k);
    var d := v - KMin(k);
    if 0 <= d < m {
      assert v == StaticCast(k, v) + 0 * m;
    } else {
      var q := d / m;
      assert v == StaticCast(k, v) + q * m;
    }
  }

  /** Only values of the kind survive the conversion unchanged: a cast of an
      out-of-range value silently yields a different number. */
  lemma StaticCastPreservesExactlyRepresentable(k: Kind, v: int)
    ensures StaticCast(k, v) == v <==> Represents(k, v)
  {
  }

  /** Two concrete silent conversions that the range checks exist to prevent. */
  lemma StaticCastWrapsOutOfRange()
    ensures StaticCast(UInt8, 256) == 0
    ensures StaticCast(UInt8, -1) == 255
    ensures StaticCast(Int8, 200) == -56
    ensures StaticCast(UInt32, -1) == 0xFFFF_FFFF
  {
  }
}

=== FILE: ranged_int.dfy ===
/** The class template `ranged_int<min_v, max_v>` and the free function
    `to_integral<t>`. */
module RangedInts {
  import opened Results
  import opened Kinds
  import opened Selection
  import opened Verification

  /** The template arguments `min_v` and `max_v`. Nothing requires
      `minV <= maxV`, as in the class template. */
  datatype Bounds = Bounds(minV: int, maxV: int)

  /** `ranged_int<minV, maxV>` names a complete type: some candidate kind
      spans the bounds (minimum at most `minV`, maximum at least `maxV`).
      Otherwise the instantiation does not compile. */
  predicate Definable(b: Bounds) {
    ValueType(b.minV, b.maxV).Some?
  }

  /** `ranged_int<minV, maxV>::value_type`. */
  function StorageKind(b: Bounds): (k: Kind)
    requires Definable(b)
    ensures InRange(b.minV, b.maxV, k)
  {
    SelectionSoundAndMinimal(b.minV, b.maxV, ValueType(b.minV, b.maxV).value);
    ValueType(b.minV, b.maxV).value
  }

  /** An object of type `ranged_int<bounds.minV, bounds.maxV>` holding `value`. */
  datatype RangedInt = RangedInt(bounds: Bounds, value: int)

  /** Every object that exists: its type is complete and its stored value is
      one of the storage kind's values. */
  predicate Valid(x: RangedInt) {
    Definable(x.bounds) && Represents(StorageKind(x.bounds), x.value)
  }

  /** Message of the `std::out_of_range` thrown by the validating constructor. */
  const InitFailed: string := "rint: failed to initialize"

  /** Message of the `std::out_of_range` thrown by `to_integral`. */
  const CastFailed: string := "rint: unable to cast"

  /** `ranged_int::min()`: the lower bound converted to the storage kind.
      Selection only checks `minV` against the kind's minimum, so the
      conversion is lossless exactly when `minV` does not also exceed the
      kind's maximum, which ordered bounds guarantee. */
  function Min(b: Bounds): (r: int)
    requires Definable(b)
    ensures Represents(StorageKind(b), r)
    ensures r == b.minV <==> Represents(StorageKind(b), b.minV)
    ensures b.minV <= b.maxV ==> r == b.minV
  {
    StaticCast(StorageKind(b), b.minV)
  }

  /** `ranged_int::max()`: the upper bound converted to the storage kind;
      lossless whenever the bounds are ordered. */
  function Max(b: Bounds): (r: int)
    requires Definable(b)
    ensures Represents(StorageKind(b), r)
    ensures r == b.maxV <==> Represents(StorageKind(b), b.maxV)
    ensures b.minV <= b.maxV ==> r == b.maxV
  {
    StaticCast(StorageKind(b), b.maxV)
  }

  /** Reversed bounds are not rejected. When a kind still spans them, `min()`
      or `max()` can wrap: `ranged_int<300, 0>` is stored in `uint8_t` and
      its `min()` is 44, and `ranged_int<0, -5>` has `max()` 251. Whether it
      wraps depends on the bounds: `ranged_int<5, 0>` keeps both. Reversed
      bounds that no kind spans name no type. */
  lemma ReversedBoundsWrap()
    ensures Definable(Bounds(300, 0)) && StorageKind(Bounds(300, 0)) == UInt8
    ensures Min(Bounds(300, 0)) == 44
    ensures Definable(Bounds(0, -5)) && StorageKind(Bounds(0, -5)) == UInt8
    ensures Max(Bounds(0, -5)) == 251
    ensures Definable(Bounds(5, 0)) && Min(Bounds(5, 0)) == 5 && Max(Bounds(5, 0)) == 0
    ensures !Definable(Bounds(-3_000_000_000, -4_000_000_000))
  {
    SelectionIsDecisionTable(300, 0);
    SelectionIsDecisionTable(0, -5);
    SelectionIsDecisionTable(5, 0);
    SelectionIsDecisionTable(-3_000_000_000, -4_000_000_000);
  }

  /** The validating constructor `explicit ranged_int(Val val)`. The value is
      checked against the native limits of the storage kind, not against
      `[minV, maxV]`; on success the object holds exactly `val`. */
  function Construct(b: Bounds, val: int): (r: Result<RangedInt>)
    requires Definable(b)
    ensures r.Ok? <==> Represents(StorageKind(b), val)
    ensures r.Ok? ==> Valid(r.value) && r.value.bounds == b && Deref(r.value) == val
    ensures r.Err? ==> r.error == InitFailed
  {
    var k := StorageKind(b);
    match VerifyRange(k, val, InitFailed)
    case Fail(e) => Err(e)
    case Pass => Ok(RangedInt(b, StaticCast(k, val)))
  }

  /** The default constructor: stores 0 without any check. Zero is a value of
      every kind, so the object is valid, but it need not lie in `[minV, maxV]`. */
  function Default(b: Bounds): (r: RangedInt)
    requires Definable(b)
    ensures Valid(r) && r.bounds == b && Deref(r) == 0
  {
    RangedInt(b, StaticCast(StorageKind(b), 0))
  }

  /** `operator*`: the stored value, as a value of the storage kind. */
  function Deref(x: RangedInt): (r: int)
    requires Valid(x)
    ensures Represents(StorageKind(x.bounds), r)
  {
    x.value
  }

  /** `operator>`: the primitive comparison of stored values; its laws are
      `Trichotomy`, `OrderLaws` and `ComparisonsIgnoreBounds`.

      The C++ operators are member templates over the other operand's
      bounds, but they read that operand's private `value`, which a different
      instantiation of the class template may not access. So only two objects
      of the same instantiation can be compared, and both then have the same
      storage kind. The model's six operators accept any two objects. */
  predicate Greater(a: RangedInt, b: RangedInt) {
    a.value > b.value
  }

  /** `operator<`: the mirror image of `operator>`. */
  predicate Less(a: RangedInt, b: RangedInt)
    ensures Less(a, b) <==> Greater(b, a)
    ensures Less(a, b) ==> !Greater(a, b)
  {
    a.value < b.value
  }

  /** `operator==`: equal stored values, exactly when neither operand is
      below the other. */
  predicate Equal(a: RangedInt, b: RangedInt)
    ensures Equal(a, b) <==> !Less(a, b) && !Greater(a, b)
    ensures Equal(a, b) <==> !Less(b, a) && !Greater(b, a)
  {
    a.value == b.value
  }

  /** `operator<=`, defined as the negation of `operator>`. */
  predicate LessEq(a: RangedInt, b: RangedInt)
    ensures LessEq(a, b) <==> a.value <= b.value
  {
    !Greater(a, b)
  }

  /** `operator>=`, defined as the negation of `operator<`. */
  predicate GreaterEq(a: RangedInt, b: RangedInt)
    ensures GreaterEq(a, b) <==> a.value >= b.value
  {
    !Less(a, b)
  }

  /** `operator!=`, defined as the negation of `operator==`. */
  predicate NotEqual(a: RangedInt, b: RangedInt)
    ensures NotEqual(a, b) <==> Less(a, b) || Greater(a, b)
  {
    !Equal(a, b)
  }

  /** `to_integral<t>(x)`: the stored value converted to `t`, after checking
      it against the limits of `t`. The check uses the mathematical verdict
      of `VerifyRange`, which differs from the C++ for mixed-sign pairs
      involving `uint32_t`. */
  function ToIntegral(t: Kind, x: RangedInt): (r: Result<int>)
    requires Valid(x)
    ensures r.Ok? <==> Represents(t, Deref(x))
    ensures r.Ok? ==> r.value == Deref(x)
    ensures r.Err? ==> r.error == CastFailed
  {
    match VerifyRange(t, Deref(x), CastFailed)
    case Fail(e) => Err(e)
    case Pass => Ok(StaticCast(t, Deref(x)))
  }

  /** Construction and casting back are inverse: a value the storage kind
      holds survives construction followed by `to_integral` to the storage
      kind, and to any other kind that holds it. */
  lemma ConstructThenCastRoundTrip(b: Bounds, val: int, t: Kind)
    requires Definable(b)
    requires Represents(StorageKind(b), val)
    ensures Construct(b, val).Ok?
    ensures ToIntegral(StorageKind(b), Construct(b, val).value) == Ok(val)
    ensures Represents(t, val) ==> ToIntegral(t, Construct(b, val).value) == Ok(val)
    ensures !Represents(t, val) ==> ToIntegral(t, Construct(b, val).value) == Err(CastFailed)
  {
  }

  /** The derived operators relate to the primitive ones as an order does:
      `<=` is `<` or `==`, `>=` is `<=` with the operands swapped, and `!=`
      is strict inequality in one direction or the other. */
  lemma ComparisonsAreIntegerOrder(a: RangedInt, b: RangedInt)
    ensures LessEq(a, b) <==> Less(a, b) || Equal(a, b)
    ensures GreaterEq(a, b) <==> LessEq(b, a)
    ensures GreaterEq(a, b) <==> Greater(a, b) || Equal(a, b)
    ensures NotEqual(a, b) <==> Less(a, b) || Greater(a, b)
  {
  }

  /** The verdicts of `<`, `>` and `==` depend on the stored values alone:
      changing the bounds tags of either operand does not change them. */
  lemma ComparisonsIgnoreBounds(a: RangedInt, b: RangedInt, c: Bounds, d: Bounds)
    ensures Greater(a, b) == Greater(RangedInt(c, a.value), RangedInt(d, b.value))
    ensures Less(a, b) == Less(RangedInt(c, a.value), RangedInt(d, b.value))
    ensures Equal(a, b) == Equal(RangedInt(c, a.value), RangedInt(d, b.value))
  {
  }

  /** Exactly one of `<`, `==`, `>` holds. */
  lemma Trichotomy(a: RangedInt, b: RangedInt)
    ensures Less(a, b) || Equal(a, b) || Greater(a, b)
    ensures !(Less(a, b) && Equal(a, b))
    ensures !(Less(a, b) && Greater(a, b))
    ensures !(Equal(a, b) && Greater(a, b))
  {
  }

  /** `<`, `<=` and `==` are transitive, `==` is reflexive and symmetric,
      and `<=` is antisymmetric with respect to `==`. */
  lemma OrderLaws(a: RangedInt, b: RangedInt, c: RangedInt)
    ensures Less(a, b) && Less(b, c) ==> Less(a, c)
    ensures LessEq(a, b) && LessEq(b, c) ==> LessEq(a, c)
    ensures Equal(a, b) && Equal(b, c) ==> Equal(a, c)
    ensures Equal(a, a)
    ensures Equal(a, b) ==> Equal(b, a)
    ensures LessEq(a, b) && LessEq(b, a) ==> Equal(a, b)
  {
  }

  /** Casting to a kind whose limits contain those of the storage kind never
      fails; in particular casting to the storage kind itself. */
  lemma WideningCastSucceeds(t: Kind, x: RangedInt)
    requires Valid(x)
    requires KMin(t) <= KMin(StorageKind(x.bounds)) && KMax(StorageKind(x.bounds)) <= KMax(t)
    ensures ToIntegral(t, x) == Ok(x.value)
  {
    WideningNeverFails(t, StorageKind(x.bounds), x.value, CastFailed);
  }

  /** A negative stored value never casts to an unsigned kind under the
      mathematical comparison. (In the C++, the check against `uint32_t`
      converts a negative value to a large unsigned one and lets it pass.) */
  lemma NegativeToUnsignedFails(t: Kind, x: RangedInt)
    requires Valid(x) && x.value < 0 && !IsSigned(t)
    ensures ToIntegral(t, x) == Err(CastFailed)
  {
  }
}

=== FILE: results.dfy ===
/** Failure-carrying wrappers used in place of C++ exceptions and of a
    template specialisation that has no `type` member. */
module Results {

  /** An optional value: `None` stands for "no such type was found". */
  datatype Option<+T> = None | Some(value: T)

  /** A value, or the message of the `std::out_of_range` that would have been thrown. */
  datatype Result<+T> = Ok(value: T) | Err(error: string)

  /** A check that either passes or fails with a message. */
  datatype Outcome = Pass | Fail(error: string)
}

=== FILE: scenarios.dfy ===
/** Concrete uses of `ranged_int`, taken from the repository's demonstration
    driver and test suite, stated over the model. */
module Scenarios {
  import opened Results
  import opened Kinds
  import opened Selection
  import opened RangedInts

  /** The driver builds `ranged_int<-1, 100>` from -1 (stored in `int8_t`);
      `to_integral<int8_t>` gives -1 back, and the `to_integral<uint8_t>`
      call it leaves commented out would throw. It also builds
      `ranged_int<0, 100>` from 1. */
  lemma DriverScenario()
    ensures Definable(Bounds(-1, 100)) && StorageKind(Bounds(-1, 100)) == Int8
    ensures Construct(Bounds(-1, 100), -1) == Ok(RangedInt(Bounds(-1, 100), -1))
    ensures ToIntegral(Int8, RangedInt(Bounds(-1, 100), -1)) == Ok(-1)
    ensures ToIntegral(UInt8, RangedInt(Bounds(-1, 100), -1)) == Err(CastFailed)
    ensures Definable(Bounds(0, 100))
    ensures Construct(Bounds(0, 100), 1) == Ok(RangedInt(Bounds(0, 100), 1))
  {
    SelectionIsDecisionTable(-1, 100);
    SelectionIsDecisionTable(0, 100);
  }

  /** `ranged_int<29, 30>{}` compiles and holds 0, outside its own bounds. */
  lemma DefaultOutsideBounds()
    ensures Definable(Bounds(29, 30)) && StorageKind(Bounds(29, 30)) == UInt8
    ensures Default(Bounds(29, 30)) == RangedInt(Bounds(29, 30), 0)
    ensures Default(Bounds(29, 30)).value < Bounds(29, 30).minV
  {
    SelectionIsDecisionTable(29, 30);
  }

  /** Construction checks the storage kind's limits only: `ranged_int<10, 30>`
      (stored in `uint8_t`) accepts 200 but rejects 256 and -1. */
  lemma ConstructChecksNativeRange()
    ensures Definable(Bounds(10, 30)) && StorageKind(Bounds(10, 30)) == UInt8
    ensures Construct(Bounds(10, 30), 200) == Ok(RangedInt(Bounds(10, 30), 200))
    ensures Construct(Bounds(10, 30), 256) == Err(InitFailed)
    ensures Construct(Bounds(10, 30), -1) == Err(InitFailed)
  {
    SelectionIsDecisionTable(10, 30);
  }

  /** A `ranged_int<-10, 30>` holding -2 casts to `int8_t` but to none of the
      unsigned kinds; a `ranged_int<0, 65535>` holding 65535 does not cast to
      `int16_t`. The `uint32_t` verdict is the mathematical one: the C++
      check converts -2 to 4294967294 and lets it through. */
  lemma CastScenarios()
    ensures Definable(Bounds(-10, 30)) && StorageKind(Bounds(-10, 30)) == Int8
    ensures ToIntegral(Int8, RangedInt(Bounds(-10, 30), -2)) == Ok(-2)
    ensures ToIntegral(UInt8, RangedInt(Bounds(-10, 30), -2)) == Err(CastFailed)
    ensures ToIntegral(UInt16, RangedInt(Bounds(-10, 30), -2)) == Err(CastFailed)
    ensures ToIntegral(UInt32, RangedInt(Bounds(-10, 30), -2)) == Err(CastFailed)
    ensures Definable(Bounds(0, 0xFFFF)) && StorageKind(Bounds(0, 0xFFFF)) == UInt16
    ensures ToIntegral(Int16, RangedInt(Bounds(0, 0xFFFF), 0xFFFF)) == Err(CastFailed)
    ensures ToIntegral(Int32, RangedInt(Bounds(0, 0xFFFF), 0xFFFF)) == Ok(0xFFFF)
  {
    SelectionIsDecisionTable(-10, 30);
    SelectionIsDecisionTable(0, 0xFFFF);
  }

  /** The model's operators compare stored numbers only, so they also accept
      operands with different bounds: `ranged_int<0, 30>{1}` and
      `ranged_int<0, 40>{1}` compare equal although the objects differ. The
      C++ rejects that comparison at compile time, since the operator would
      read the private `value` of another instantiation. Within one
      instantiation, `ranged_int<-1, 100>` holding -1 is below the same type
      holding 0. */
  lemma EqualAcrossBounds()
    ensures Equal(RangedInt(Bounds(0, 30), 1), RangedInt(Bounds(0, 40), 1))
    ensures RangedInt(Bounds(0, 30), 1) != RangedInt(Bounds(0, 40), 1)
    ensures Less(RangedInt(Bounds(-1, 100), -1), RangedInt(Bounds(-1, 100), 0))
  {
  }
}

=== FILE: selection.dfy ===
/** Choice of the storage type of `ranged_int<min_v, max_v>`: the first
    candidate, in a fixed order, that spans the bounds, that is, whose minimum
    is at most `min_v` and whose maximum is at least `max_v`. For ordered
    bounds this means its limits contain both bounds; for reversed bounds it
    need not hold either. */
module Selection {
  import opened Results
  import opened Kinds

  /** `detail::in_range<min, max, T>`: `k` spans the bounds, its minimum at
      most `lo` and its maximum at least `hi`.
      The C++ comparison applies the usual arithmetic conversions, under which
      a negative bound compared with the `uint32_t` limit turns into a huge
      unsigned number; the comparison here is the mathematical one. */
  predicate InRange(lo: int, hi: int, k: Kind)
    ensures InRange(lo, hi, k) ==> forall v | lo <= v <= hi :: Represents(k, v)
    ensures lo <= hi && Represents(k, lo) && Represents(k, hi) ==> InRange(lo, hi, k)
  {
    KMin(k) <= lo && hi <= KMax(k)
  }

  /** The candidates `ranged_int::value_type` passes to `detail::value_type`, in order. */
  const Candidates: seq<Kind> := [UInt8, Int8, UInt16, Int16, UInt32, Int32]

  /** Position of a kind in `Candidates`. */
  function Rank(k: Kind): (r: nat)
    ensures r < |Candidates| && Candidates[r] == k
  {
    match k
    case UInt8 => 0
    case Int8 => 1
    case UInt16 => 2
    case Int16 => 3
    case UInt32 => 4
    case Int32 => 5
  }

  /** `detail::value_type<min, max, void, candidates...>::type`: the first of
      `cs` that spans the bounds, or `None` when the recursion reaches the
      specialisation that defines no `type`. */
  function SelectFrom(lo: int, hi: int, cs: seq<Kind>): (r: Option<Kind>)
    ensures r.None? <==> forall i | 0 <= i < |cs| :: !InRange(lo, hi, cs[i])
    ensures r.Some? ==>
      exists i | 0 <= i < |cs| ::
        && cs[i] == r.value
        && InRange(lo, hi, cs[i])
        && forall j | 0 <= j < i :: !InRange(lo, hi, cs[j])
    decreases |cs|
  {
    if |cs| == 0 then None
    else if InRange(lo, hi, cs[0]) then Some(cs[0])
    else SelectFrom(lo, hi, cs[1..])
  }

  /** `ranged_int<lo, hi>::value_type`: a kind that spans the bounds, absent
      exactly when no kind does. */
  function ValueType(lo: int, hi: int): (r: Option<Kind>)
    ensures r.Some? ==> InRange(lo, hi, r.value)
    ensures r.None? <==> forall k :: !InRange(lo, hi, k)
  {
    assert forall k :: Candidates[Rank(k)] == k;
    SelectFrom(lo, hi, Candidates)
  }

  /** The selected kind spans the bounds, and no kind earlier in the
      candidate order does. */
  lemma SelectionSoundAndMinimal(lo: int, hi: int, k: Kind)
    requires ValueType(lo, hi) == Some(k)
    ensures InRange(lo, hi, k)
    ensures forall k' :: Rank(k') < Rank(k) ==> !InRange(lo, hi, k')
  {
    var i :| 0 <= i < |Candidates| && Candidates[i] == k && InRange(lo, hi, k)
             && forall j | 0 <= j < i :: !InRange(lo, hi, Candidates[j]);
    assert i == Rank(k);
    forall k' | Rank(k') < Rank(k)
      ensures !InRange(lo, hi, k')
    {
      assert Candidates[Rank(k')] == k';
    }
  }

  /** Selection fails exactly when no candidate spans the bounds, that is,
      when neither `uint32_t` nor `int32_t` does. */
  lemma SelectionFailsIff(lo: int, hi: int)
    ensures ValueType(lo, hi).None? <==> forall k :: !InRange(lo, hi, k)
    ensures ValueType(lo, hi).None? <==>
      !((0 <= lo && hi <= 0xFFFF_FFFF) || (-0x8000_0000 <= lo && hi <= 0x7FFF_FFFF))
  {
    if ValueType(lo, hi).None? {
      forall k ensures !InRange(lo, hi, k) {
        assert Candidates[Rank(k)] == k;
      }
    } else {
      assert InRange(lo, hi, ValueType(lo, hi).value) by {
        SelectionSoundAndMinimal(lo, hi, ValueType(lo, hi).value);
      }
    }
  }

  /** The signedness of the selected kind follows the sign of the lower
      bound: no unsigned kind holds a negative bound, and whenever a signed
      kind holds a non-negative one, the unsigned kind of the same width,
      which comes first, holds it too. */
  lemma SignednessFollowsMin(lo: int, hi: int, k: Kind)
    requires ValueType(lo, hi) == Some(k)
    ensures IsSigned(k) <==> lo < 0
  {
    ValueTypeUnfolded(lo, hi);
  }

  /** No kind narrower than the selected one spans the bounds. */
  lemma SelectedIsNarrowest(lo: int, hi: int, k: Kind, k': Kind)
    requires ValueType(lo, hi) == Some(k)
    requires InRange(lo, hi, k')
    ensures Bits(k) <= Bits(k')
  {
    SelectionSoundAndMinimal(lo, hi, k);
  }

  /** The scan over `Candidates` spelled out: the template recursion tries
      each candidate in turn. */
  lemma ValueTypeUnfolded(lo: int, hi: int)
    ensures ValueType(lo, hi) ==
      if InRange(lo, hi, UInt8) then Some(UInt8)
      else if InRange(lo, hi, Int8) then Some(Int8)
      else if InRange(lo, hi, UInt16) then Some(UInt16)
      else if InRange(lo, hi, Int16) then Some(Int16)
      else if InRange(lo, hi, UInt32) then Some(UInt32)
      else if InRange(lo, hi, Int32) then Some(Int32)
      else None
  {
    var cs := Candidates;
    assert cs[1..] == [Int8, UInt16, Int16, UInt32, Int32];
    assert cs[1..][1..] == [UInt16, Int16, UInt32, Int32];
    assert cs[1..][1..][1..] == [Int16, UInt32, Int32];
    assert cs[1..][1..][1..][1..] == [UInt32, Int32];
    assert cs[1..][1..][1..][1..][1..] == [Int32];
    assert cs[1..][1..][1..][1..][1..][1..] == [];
  }

  /** The selection rule written as a decision table: for a negative lower
      bound the first signed kind, by width, that spans the bounds; otherwise
      the first unsigned kind whose maximum reaches the upper bound. */
  function DecisionTable(lo: int, hi: int): Option<Kind> {
    if lo < 0 then
      if -0x80 <= lo && hi <= 0x7F then Some(Int8)
      else if -0x8000 <= lo && hi <= 0x7FFF then Some(Int16)
      else if -0x8000_0000 <= lo && hi <= 0x7FFF_FFFF then Some(Int32)
      else None
    else
      if hi <= 0xFF then Some(UInt8)
      else if hi <= 0xFFFF then Some(UInt16)
      else if hi <= 0xFFFF_FFFF then Some(UInt32)
      else None
  }

  /** The ordered scan over the candidates and the decision table agree on every pair of bounds. */
  lemma SelectionIsDecisionTable(lo: int, hi: int)
    ensures ValueType(lo, hi) == DecisionTable(lo, hi)
  {
    ValueTypeUnfolded(lo, hi);
    if lo < 0 {
      assert !InRange(lo, hi, UInt8) && !InRange(lo, hi, UInt16) && !InRange(lo, hi, UInt32);
    } else {
      assert InRange(lo, hi, Int8) ==> InRange(lo, hi, UInt8);
      assert InRange(lo, hi, Int16) ==> InRange(lo, hi, UInt16);
      assert InRange(lo, hi, Int32) ==> InRange(lo, hi, UInt32);
    }
  }

  /** Bounds equal to a kind's own limits select that kind; the remaining
      cases are the selections exercised by the repository's test suite and
      demonstration driver. */
  lemma ConcreteSelections()
    ensures ValueType(0, 0xFF) == Some(UInt8)
    ensures ValueType(1, 254) == Some(UInt8)
    ensures ValueType(10, 30) == Some(UInt8)
    ensures ValueType(0, 100) == Some(UInt8)
    ensures ValueType(-0x80, 0x7F) == Some(Int8)
    ensures ValueType(-1, 100) == Some(Int8)
    ensures ValueType(0, 0xFFFF) == Some(UInt16)
    ensures ValueType(0, 256) == Some(UInt16)
    ensures ValueType(-0x8000, 0x7FFF) == Some(Int16)
    ensures ValueType(-1, 256) == Some(Int16)
    ensures ValueType(-129, 100) == Some(Int16)
    ensures ValueType(0, 0xFFFF_FFFF) == Some(UInt32)
    ensures ValueType(-0x8000_0000, 0x7FFF_FFFF) == Some(Int32)
    ensures ValueType(-0x8000_0000, 0) == Some(Int32)
    ensures ValueType(0, 0x1_0000_0000) == None
    ensures ValueType(-0x8000_0001, 0) == None
    ensures ValueType(-1, 0x8000_0000) == None
  {
    forall lo: int, hi: int ensures ValueType(lo, hi) == DecisionTable(lo, hi) {
      SelectionIsDecisionTable(lo, hi);
    }
  }
}

=== FILE: verification.dfy ===
/** `detail::verify_range<R>(val, msg)`: the guard run by both construction
    and `to_integral`. */
module Verification {
  import opened Results
  import opened Kinds

  /** Fails with `msg` when `val` lies below the minimum or above the maximum
      of `target`. The verdict is the mathematical one. The C++ comparisons
      apply the usual arithmetic conversions, which turn the signed operand
      unsigned when the unsigned type has at least its rank: a negative `int`
      (or narrower) `val` checked against `uint32_t` passes, and a `uint32_t`
      or 64-bit unsigned `val` checked against a signed target fails, because
      the signed minimum becomes a large unsigned number. A `long long` `val`
      is compared in its own type and gets the mathematical verdict. */
  function VerifyRange(target: Kind, val: int, msg: string): (r: Outcome)
    ensures r.Pass? <==> Represents(target, val)
    ensures r.Fail? ==> r.error == msg
  {
    if KMin(target) > val || KMax(target) < val then Fail(msg) else Pass
  }

  /** The same guard described as a three-way dispatch on the signedness of
      the target kind and of the kind `source` the checked value comes from:
      same signedness compares against both limits; an unsigned target with a
      signed source rejects negatives and values above the maximum; a signed
      target with an unsigned source only needs the maximum. */
  function VerifyBySignedness(target: Kind, source: Kind, val: int, msg: string): Outcome {
    if IsSigned(target) == IsSigned(source) then
      if val < KMin(target) || val > KMax(target) then Fail(msg) else Pass
    else if !IsSigned(target) then
      if val < 0 || val > KMax(target) then Fail(msg) else Pass
    else
      if val > KMax(target) then Fail(msg) else Pass
  }

  /** For every value its own kind can hold, the direct limit comparison and
      the signedness dispatch reach the same verdict. */
  lemma VerifyRangeAgreesWithDispatch(target: Kind, source: Kind, val: int, msg: string)
    requires Represents(source, val)
    ensures VerifyRange(target, val, msg) == VerifyBySignedness(target, source, val, msg)
  {
  }

  /** A target whose limits contain those of the source kind accepts every
      value of the source kind. */
  lemma WideningNeverFails(target: Kind, source: Kind, val: int, msg: string)
    requires KMin(target) <= KMin(source) && KMax(source) <= KMax(target)
    requires Represents(source, val)
    ensures VerifyRange(target, val, msg) == Pass
  {
  }
}
